=== FILE: README.md ===
# send_mail: the pure core, modelled in Dafny

`send_mail.py` has one entry point, `send_mail(to, subject, message, ...)`,
and two public address helpers, `is_valid_mail_address` and
`to_parseable_mail_address`. `send_mail` validates and normalises
addresses, composes a MIME message, and hands it to an SMTP server. This
project models the helpers and the part of `send_mail` that decides what
is sent, up to the envelope handed to the server:

- the address pattern `MAIL_ADDRESS_RE` (`AddressPattern`);
- the validator `is_valid_mail_address` and the normaliser
  `to_parseable_mail_address` (`Addresses`);
- parsing of the To, Cc and Bcc lists, and of the sender and reply-to
  values (`Recipients`);
- header composition, the `alternative` body parts and the SMTP envelope
  (`Composer`).

Two supporting modules hold the rest. `Text` models Python's
`str.split`, `str.join` and `str.strip`. `Results` holds `Option` and
`Result`. `Scenarios` holds concrete cases.

Python values are the datatype `Addresses.Value`: str, bool, tuple, list,
`None`, or any other object with its truthiness. A raised exception is an
`Err` of `Addresses.Error`.

The regular expression is stated twice:

- `HasAddressPrefix` says some split of the string into local part, `@`,
  domain, `.` and a top-level label of at least two letters satisfies
  both word boundaries.
- `MatchesAddress` is a left-to-right scanner.

`MatchesAddressCorrect` proves the two agree, and the validator runs the
scanner. The pattern follows Python 3 `re` on str patterns: with `re.I`,
`[A-Z]` also matches U+0130, U+0131, U+017F and U+212A.

`SendMail` chains the steps in the order the source runs them:

1. sender and reply-to;
2. To, then Cc and Bcc when truthy;
3. the headers;
4. the body parts;
5. the envelope.

The HTML-to-text converter and the `Date` header value are parameters.
Attachments, custom headers, the configuration lookup and the SMTP session
also run in the call, and are listed under "Left out".

## Notes on the code

- The HTML switch is `is_html`, with an optional plain-text `text`
  (send_mail.py:72-74).
- `reply_to` is one address, not a list (send_mail.py:101-102).
- An empty subject is not rejected. send_mail.py does not check for an empty recipient set either; only the SMTP library, which is left out, refuses an empty recipient list.
- Bcc is parsed from its own argument (send_mail.py:119-125).
- `use_tls` is plain truthiness, and there is no SSL or debug option
  (send_mail.py:192).

## Model

| member | source | states |
|---|---|---|
| AddressPattern.MatchesAddressCorrect | send_mail.py:35 | The scanner accepts a string exactly when some split into local part, `@`, domain, dot and label of two or more letters matches at the start with both `\b` boundaries satisfied |
| AddressPattern.ScannerSound | send_mail.py:35 | Whatever the scanner accepts has a matching split |
| AddressPattern.ScannerComplete | send_mail.py:35 | Every matching split is found by the scanner |
| AddressPattern.LocalPartForced | send_mail.py:35 | The `@` of any match sits exactly where the maximal run of local-part characters stops, and the first character is a word character |
| AddressPattern.DomainWithinRun | send_mail.py:35 | The dot before the label lies after at least one domain character and inside the maximal run of domain characters |
| AddressPattern.LabelForced | send_mail.py:35 | A label ends exactly where the run of letters after its dot ends; shorter backtracked labels never satisfy the trailing `\b` |
| AddressPattern.FindTopLabel | send_mail.py:35 | A successful label search yields the first dot inside the searched range that starts a valid label |
| AddressPattern.SomeTopLabelFrom | send_mail.py:35 | Any dot in the range that starts a valid label makes the label search succeed |
| AddressPattern.CaseInsensitive | send_mail.py:35 | Two strings that differ only in ASCII letter case are both accepted or both rejected |
| AddressPattern.TrailingTextAllowed | send_mail.py:35 | `re.match` anchors only at the start: appending text that begins with a non-word character keeps an accepted string accepted |
| AddressPattern.ShortLabelsRejected | send_mail.py:35 | A string in which no dot is followed by two letters is rejected |
| AddressPattern.NoAtRejected | send_mail.py:35 | A string without `@` is rejected |
| AddressPattern.NonWordStartRejected | send_mail.py:35 | A string whose first character is not a word character is rejected |
| Addresses.IsValidMailAddress | send_mail.py:38-57 | Valid exactly for a str that matches the pattern, or a 2-tuple of a str-or-bool name and a matching str; falsy values and anything but str or tuple are invalid |
| Addresses.NameContentIrrelevant | send_mail.py:49-55 | A pair's validity does not depend on the name's content or type, only on its address |
| Addresses.ToParseable | send_mail.py:60-69 | Corrected: succeeds exactly on valid values, a str becoming `(False, s)` and a valid pair coming back unchanged; anything else raises the intended error carrying the offending value; the result's address always matches |
| Addresses.ToParseableAsWritten | send_mail.py:60-69 | As written: succeeds exactly where the corrected form does, with the same result; an invalid tuple of other than one element raises the TypeError of line 63's `%` instead, and any other invalid value raises the intended error |
| Addresses.NormalizeIdempotent | send_mail.py:60-69 | Normalising a normalised pair gives the same pair |
| Recipients.NormalizeAll | send_mail.py:105-109 | All elements valid iff it succeeds; then the result has the same length and element i is the normalised element i; otherwise the error names the field and the first invalid element |
| Recipients.Tokens | send_mail.py:104 | A str gives one token per comma-separated piece, at least one; token i is piece i with `strip()` applied, so it is a str with no comma and no white space at either end |
| Recipients.Elements | send_mail.py:104 | A list is taken as it is; a str gives its stripped comma-separated tokens, at least one and each clean; anything else raises because it has no `split` |
| Recipients.ParseField | send_mail.py:104-125 | A list is parsed element by element; a value with no `split` raises; a truthy value that parses gives at least one recipient; the error carries the field |
| Recipients.ParseOptionalField | send_mail.py:111-125 | A falsy Cc or Bcc is skipped and gives no recipients; a truthy one is parsed like To, and when it parses it gives at least one recipient |
| Recipients.ParseSingle | send_mail.py:98-102 | A falsy sender or reply-to is absent; a truthy one succeeds iff valid, and becomes its normalised pair |
| Recipients.CsvMatchesList | send_mail.py:104 | A str parses exactly as the list of its stripped comma-separated tokens |
| Recipients.CsvAndListAgree | send_mail.py:104-109 | Valid addresses with no comma or edge space parse identically as a `", "`-joined str and as a list, in order, with no name |
| Recipients.TokensOfJoin | send_mail.py:104 | Splitting a `", "`-join on commas and stripping each piece gives back the joined tokens |
| Recipients.JoinedAddressesParse | send_mail.py:104-109 | A `", "`-join of valid clean addresses parses in any field into the same addresses with no name |
| Recipients.BareAddressesNormalise | send_mail.py:105-109 | A list of valid address strings normalises into the same addresses with no name |
| Recipients.TrailingCommaRejected | send_mail.py:104-107 | A string ending in a comma yields an empty last token and is rejected |
| Recipients.ListIsNotSingle | send_mail.py:98-102 | A non-empty list given as sender or reply-to raises |
| Recipients.PairIsNotARecipientList | send_mail.py:104 | A bare pair given as a recipient field raises instead of being taken as a one-element list |
| Composer.Formattable | send_mail.py:127-137 | `formataddr` rejects a name of `True`, and a formattable address holds none of the four non-ASCII letters the pattern admits |
| Composer.Rendered | send_mail.py:127-137 | The rendering is the bare address exactly when there is no non-empty name, and `Name <addr>` otherwise |
| Composer.FormatAddress | send_mail.py:127-137 | `formataddr` succeeds exactly on formattable pairs, with their rendering, and otherwise raises carrying the pair |
| Composer.FormatAll | send_mail.py:131 | Every address formats iff none has a non-ASCII address or a `True` name; then each formatted entry is the rendering of its address; otherwise the error carries the first unformattable address, every earlier one being formattable |
| Composer.ListHeader | send_mail.py:130-134 | A To or Cc header is set only for a non-empty list, with the `", "`-join of the formatted addresses; if an address does not format, the error carries the first such address |
| Composer.SingleHeader | send_mail.py:127-137 | A From or Reply-To header is set only when the address is present, with its formatted form; if the address does not format, the error carries it |
| Composer.ComposeHeaders | send_mail.py:127-141 | Succeeds iff every present address formats; otherwise it raises on the first unformattable address in the order sender, each To pair, each Cc pair, reply-to; From, To, Cc and Reply-To are found exactly when present, with their formatted values; Date and Subject are always set; no Bcc header exists |
| Composer.LookupAppend | send_mail.py:127-141 | A header lookup in a concatenation finds the first part's header first |
| Composer.LookupFindsAny | send_mail.py:127-141 | A lookup fails exactly when no header has that name |
| Composer.AlternativeParts | send_mail.py:143-151 | A plain message gives one plain part holding the message; an HTML one gives the plain part first (`text` if truthy, else the converted message) and then the HTML part holding the message |
| Composer.Mailboxes | send_mail.py:202 | The address component of every pair, in order |
| Composer.MailboxesAppend | send_mail.py:176-182 | Taking addresses distributes over list concatenation |
| Composer.EnvelopeAsWritten | send_mail.py:176-202 | As written: the envelope sender is the subject; the recipients are the addresses of To, Cc and Bcc, in that order |
| Composer.EnvelopeFor | send_mail.py:176-202 | Corrected: the envelope sender is the sender's address (empty when there is none); the recipients are the addresses of To, Cc and Bcc, in that order |
| Composer.SendMail | send_mail.py:98-202 | Parse errors come in the source's order: sender, reply-to, To, Cc, Bcc; when every field parses but an address does not format, the error is the headers' first formatting error (sender, To, Cc, reply-to); the call succeeds exactly when every field parses and every sender, reply-to, To and Cc address formats; the envelope is the corrected one: the sender's address as envelope sender, then the To, Cc and Bcc addresses in order; there is never a Bcc header; From, Reply-To and Cc headers appear exactly when those arguments are truthy; From and Reply-To hold the rendering of the normalised address; the To and Cc values are the `", "`-joins of the renderings; Subject, Date and preamble are set; the body is the alternative parts |
| Composer.BccOnlyInEnvelope | send_mail.py:119-137 | Changing Bcc never changes the composed message |
| Composer.FalsyCcIgnored | send_mail.py:111-182 | A falsy Cc adds no header and no recipients |
| Composer.HeaderValueReparses | send_mail.py:104-131 | A To header built from bare clean addresses parses back, as a CSV `to` string, into the same recipients |
| Composer.NamedPairParses | send_mail.py:104-109 | A `(name, addr)` pair in a To list is kept as that pair |
| Composer.NamedRecipient | send_mail.py:98-202 | One named recipient in a plain message: the call succeeds, the envelope recipients are just the bare address (line 202 would pass the subject as sender), To is `Name <addr>`, there is no From header, and the body is one plain part holding the message |
| Text.Split | send_mail.py:104 | `split(',')` gives at least one piece, no piece holds the separator, and joining the pieces with the separator restores the string |
| Text.SplitJoin | send_mail.py:104 | Splitting a join of separator-free pieces gives the pieces back |
| Text.Strip | send_mail.py:104 | `strip()` returns a part of the string with no white space at either end and only white space around it |
| Text.StripSurrounded | send_mail.py:104 | Adding white space around a stripped string does not change what `strip()` returns |
| Text.StripIdempotent | send_mail.py:104 | `strip()` is idempotent |
| Scenarios.JoAccepted | send_mail.py:35 | `jo@example.com` matches |
| Scenarios.UpperCaseAccepted | send_mail.py:35 | `A@b.Cc` matches, like `a@b.cc` |
| Scenarios.OneLetterLabelRejected | send_mail.py:35 | `jo@example.c` has a one-letter label and is rejected |
| Scenarios.TrailingLabelAccepted | send_mail.py:35 | `a@b.cc.d` matches at `a@b.cc` despite its one-letter final label |
| Scenarios.CsvElementPasses | send_mail.py:46 | A single list element `"a@x.com, b@y.com"` is valid because its first address matches |
| Scenarios.KelvinSignAccepted | send_mail.py:35 | An address ending in the Kelvin sign matches the pattern but cannot be formatted |
| Scenarios.AccentedTailAccepted | send_mail.py:35-57 | `jo@example.com é` passes the validator, because only a prefix must match, but cannot be formatted |
| Scenarios.BadPairLosesMessage | send_mail.py:60-69 | The sender `("Jo", "bad")` is rejected; as written line 63 raises TypeError, the corrected form raises the intended error naming the pair |
| Scenarios.EnvelopeSenderIsSubject | send_mail.py:202 | The as-written envelope sender for the subject `[Mail Test] Hello` is that subject, which is no address; the corrected one is the sender's address |

## Left out

- SMTP transport is not modelled: connect, `ehlo`, `starttls`, `login`, `sendmail` and `close` (lines 194-207) are network I/O. The model stops at the `Mail` and the `Envelope`. `SendMail` carries the corrected envelope sender (see "Findings"); `EnvelopeAsWritten` is what line 202 passes.
- Exception messages are not modelled. Each `Error` constructor carries the offending value as the model's own label. Python's messages for `ArgumentCountMismatch` (a TypeError), `NotSplittable` (an AttributeError naming only the type) and `Unformattable` (a UnicodeEncodeError, or an AttributeError for a `True` name) do not contain that value.
- Recipients.ParseField: for a value that is neither list nor str, Python raises AttributeError from `split`, which names no field. The field in `NotSplittable` is the model's label.
- Addresses.ToParseable: it is the corrected form of line 63 and always raises the intended error. `ToParseableAsWritten` has the TypeError case, and `Recipients.ParseSingle` and `SendMail` use the corrected form.
- Configuration lookup through `kwargs` and `os.getenv`, and `int(port)` (lines 185-192), are environment plumbing.
- `html2text` (lines 96, 149) is a foreign library. It is the parameter `htmlToText`.
- `formatdate` (line 139) reads the clock. The `Date` value is the parameter `date`.
- MIME serialisation, UTF-8 and base64 encoding, and the multipart structure beyond the ordered list of alternative parts are library internals.
- Composer.Rendered: `formataddr` puts a name with special characters in quotes and RFC 2047-encodes a non-ASCII name. The model renders `Name <addr>` verbatim, because both are library internals.
- Attachments (lines 155-170) need the filesystem and logging.
- Custom headers (lines 172-174) use the Python-2-only `iteritems` over a dict with no stated order.
- The source writes normalised pairs back into the caller's To/Cc/Bcc list in place. The model returns new sequences instead, because only the values matter to the message.
- AddressPattern.IsWordChar: `\b` counts every Unicode letter and digit as a word character. The model counts only ASCII letters and digits, `_`, and the four non-ASCII letters the pattern itself matches, because the Unicode database is out of scope.
- AddressPattern.CaseInsensitive: covers ASCII case pairs only, not the non-ASCII case folding that `re.I` also applies, for the same reason.
- Python 2 is not modelled: str vs unicode, byte passwords, and the differences in `formataddr` and `re`. The model follows Python 3.
- A `text` argument is modelled as an optional string that counts when non-empty. Other truthy objects passed as `text` are not modelled.
- test_send_mail.py holds live-SMTP integration tests and an environment fixture; setup.py is packaging. Neither is part of this model.

## Findings

| source | as written | input that shows it | evidently intended | confidence | as-written member | corrected member |
|---|---|---|---|---|---|---|
| send_mail.py:63 | `'... "%s" ...' % address` uses the rejected value itself as the argument list when it is a tuple | sender `("Jo", "bad")`: two arguments for one `%s` raise TypeError ("not all arguments converted") instead of the intended message | the message names the rejected value, `% (address,)` | high; not executed | Addresses.ToParseableAsWritten (shown by Scenarios.BadPairLosesMessage) | Addresses.ToParseable (used by Recipients.ParseSingle) |
| send_mail.py:202 | `sendmail(subject, ...)` passes the subject line as the SMTP envelope sender (MAIL FROM) | subject `[Mail Test] Hello` with sender `notifications@example.com`: the envelope sender is `[Mail Test] Hello`, which the address pattern rejects | the envelope sender is the sender's address | high; not executed | Composer.EnvelopeAsWritten (shown by Scenarios.EnvelopeSenderIsSubject) | Composer.EnvelopeFor (used by Composer.SendMail) |

=== FILE: address_pattern.dfy ===
/** The address shape `MAIL_ADDRESS_RE` recognises, compiled with `re.I` and
    applied with `re.match`: anchored at the start only, case-insensitive,
    trailing text allowed.  The shape is stated once as an existential over
    the points where a backtracking match would split the string, and once
    as a left-to-right scanner; `MatchesAddressCorrect` proves them equal. */
module AddressPattern {

  /** `[A-Z]` under `re.I` for a Python 3 str pattern: the 52 ASCII letters
      and the four non-ASCII letters whose case folding reaches one of them
      (U+0130, U+0131, U+017F, U+212A). */
  predicate IsPatternLetter(c: char) {
    || ('A' <= c <= 'Z') || ('a' <= c <= 'z')
    || c == '\U{130}' || c == '\U{131}' || c == '\U{17F}' || c == '\U{212A}'
  }

  predicate IsDigit(c: char) {
    '0' <= c <= '9'
  }

  /** `[A-Z0-9._%+-]`, the local part. */
  predicate IsLocalChar(c: char) {
    IsPatternLetter(c) || IsDigit(c) || c == '.' || c == '_' || c == '%' || c == '+' || c == '-'
  }

  /** `[A-Z0-9.-]`, the domain part. */
  predicate IsDomainChar(c: char) {
    IsPatternLetter(c) || IsDigit(c) || c == '.' || c == '-'
  }

  /** The characters `\b` counts as word characters. */
  predicate IsWordChar(c: char) {
    IsPatternLetter(c) || IsDigit(c) || c == '_'
  }

  ghost predicate AllIn(s: string, lo: int, hi: int, p: char -> bool) {
    0 <= lo <= hi <= |s| && forall k :: lo <= k < hi ==> p(s[k])
  }

  /** The local part `s[..at]` followed by the `@` at `s[at]`; the leading
      `\b` needs a word character first. */
  ghost predicate LocalPartAt(s: string, at: int) {
    0 < at < |s| && AllIn(s, 0, at, IsLocalChar) && IsWordChar(s[0]) && s[at] == '@'
  }

  /** The domain `s[at + 1..dot]` followed by the literal dot at `s[dot]`. */
  ghost predicate DomainAt(s: string, at: int, dot: int) {
    0 <= at && at + 1 < dot < |s| && AllIn(s, at + 1, dot, IsDomainChar) && s[dot] == '.'
  }

  /** The top-level label `s[dot + 1..end]` of two or more letters; the
      trailing `\b` needs a non-word character (or the end) right after its
      last letter. */
  ghost predicate LabelSpan(s: string, dot: int, end: int) {
    0 <= dot && dot + 3 <= end <= |s| && AllIn(s, dot + 1, end, IsPatternLetter)
    && (end == |s| || !IsWordChar(s[end]))
  }

  /** A successful match of the pattern against `s[..end]`, split where a
      backtracking matcher would split it. */
  ghost predicate MatchSplit(s: string, at: int, dot: int, end: int) {
    LocalPartAt(s, at) && DomainAt(s, at, dot) && LabelSpan(s, dot, end)
  }

  /** `MAIL_ADDRESS_RE.match(s)` succeeds: some backtracking split exists. */
  ghost predicate HasAddressPrefix(s: string) {
    exists at, dot, end :: MatchSplit(s, at, dot, end)
  }

  /** Length of the longest run of `p`-characters starting at `from`. */
  function RunLength(s: string, from: nat, p: char -> bool): (n: nat)
    requires from <= |s|
    ensures from + n <= |s|
    ensures forall k :: from <= k < from + n ==> p(s[k])
    ensures from + n == |s| || !p(s[from + n])
    decreases |s| - from
  {
    if from == |s| || !p(s[from]) then 0 else 1 + RunLength(s, from + 1, p)
  }

  /** The dot at `dot` is followed by a label of two or more letters that
      ends on a word boundary. */
  predicate TopLabelAt(s: string, dot: nat)
    requires dot < |s|
  {
    var n := RunLength(s, dot + 1, IsPatternLetter);
    n >= 2 && (dot + 1 + n == |s| || !IsWordChar(s[dot + 1 + n]))
  }

  predicate SomeTopLabel(s: string, lo: nat, hi: nat)
    requires lo <= hi <= |s|
    decreases hi - lo
  {
    lo < hi && ((s[lo] == '.' && TopLabelAt(s, lo)) || SomeTopLabel(s, lo + 1, hi))
  }

  /** The scanner: the local part is the maximal run of local characters and
      must stop at an `@`; the domain and label live inside the maximal run
      of domain characters after it, and some dot in that run (not the first
      character) must start a valid top-level label. */
  predicate MatchesAddress(s: string) {
    var at := RunLength(s, 0, IsLocalChar);
    if at == 0 || at == |s| || s[at] != '@' || !IsWordChar(s[0]) then false
    else
      var domainEnd := at + 1 + RunLength(s, at + 1, IsDomainChar);
      at + 2 <= domainEnd && SomeTopLabel(s, at + 2, domainEnd)
  }

  /** Any dot in `s[lo..hi]` that starts a top-level label is found. */
  lemma {:induction false} SomeTopLabelFrom(s: string, lo: nat, hi: nat, d: nat)
    requires lo <= d < hi <= |s| && s[d] == '.' && TopLabelAt(s, d)
    ensures SomeTopLabel(s, lo, hi)
    decreases hi - lo
  {
    if lo < d {
      SomeTopLabelFrom(s, lo + 1, hi, d);
    }
  }

  /** The `@` can only sit where the run of local characters stops. */
  lemma LocalPartForced(s: string, at: int)
    ensures LocalPartAt(s, at) <==>
      (var run := RunLength(s, 0, IsLocalChar);
       at == run && 0 < run < |s| && s[run] == '@' && IsWordChar(s[0]))
  {
  }

  /** The dot before the label lies inside the run of domain characters. */
  lemma DomainWithinRun(s: string, at: nat, dot: int)
    requires at < |s|
    ensures DomainAt(s, at, dot) <==>
      (at + 2 <= dot < at + 1 + RunLength(s, at + 1, IsDomainChar) && s[dot] == '.')
  {
  }

  /** The label ends exactly where the run of letters after the dot ends. */
  lemma LabelForced(s: string, dot: nat, end: int)
    requires dot < |s|
    ensures LabelSpan(s, dot, end) <==>
      (TopLabelAt(s, dot) && end == dot + 1 + RunLength(s, dot + 1, IsPatternLetter))
  {
  }

  /** The scanner accepts exactly the strings the pattern matches. */
  lemma MatchesAddressCorrect(s: string)
    ensures MatchesAddress(s) <==> HasAddressPrefix(s)
  {
    if HasAddressPrefix(s) {
      var at, dot, end :| MatchSplit(s, at, dot, end);
      ScannerComplete(s, at, dot, end);
    }
    if MatchesAddress(s) {
      ScannerSound(s);
    }
  }

  lemma ScannerComplete(s: string, at: int, dot: int, end: int)
    requires MatchSplit(s, at, dot, end)
    ensures MatchesAddress(s)
  {
    LocalPartForced(s, at);
    DomainWithinRun(s, at, dot);
    LabelForced(s, dot, end);
    SomeTopLabelFrom(s, at + 2, at + 1 + RunLength(s, at + 1, IsDomainChar), dot);
  }

  lemma ScannerSound(s: string)
    requires MatchesAddress(s)
    ensures HasAddressPrefix(s)
  {
    var at := RunLength(s, 0, IsLocalChar);
    LocalFromRun(s);
    var dot := ScannerDot(s);
    DomainFromRun(s, at, dot);
    LabelFromRun(s, dot);
    assert MatchSplit(s, at, dot, dot + 1 + RunLength(s, dot + 1, IsPatternLetter));
  }

  /** The dot the scanner found: inside the domain run, starting a label. */
  lemma ScannerDot(s: string) returns (dot: nat)
    requires MatchesAddress(s)
    ensures var at := RunLength(s, 0, IsLocalChar);
      at < |s| && at + 2 <= dot < at + 1 + RunLength(s, at + 1, IsDomainChar) && s[dot] == '.' && TopLabelAt(s, dot)
  {
    var at := RunLength(s, 0, IsLocalChar);
    dot := FindTopLabel(s, at + 2, at + 1 + RunLength(s, at + 1, IsDomainChar));
  }

  /** The first dot in `s[lo..hi]` that starts a top-level label. */
  lemma {:induction false} FindTopLabel(s: string, lo: nat, hi: nat) returns (d: nat)
    requires lo <= hi <= |s| && SomeTopLabel(s, lo, hi)
    ensures lo <= d < hi && s[d] == '.' && TopLabelAt(s, d)
    ensures forall j :: lo <= j < d ==> !(s[j] == '.' && TopLabelAt(s, j))
    decreases hi - lo
  {
    if s[lo] == '.' && TopLabelAt(s, lo) {
      d := lo;
    } else {
      d := FindTopLabel(s, lo + 1, hi);
    }
  }

  /** The scanner's `@` position ends a valid local part. */
  lemma LocalFromRun(s: string)
    requires MatchesAddress(s)
    ensures LocalPartAt(s, RunLength(s, 0, IsLocalChar))
  {
  }

  /** A dot inside the run of domain characters ends a valid domain. */
  lemma DomainFromRun(s: string, at: nat, dot: int)
    requires at < |s| && at + 2 <= dot < at + 1 + RunLength(s, at + 1, IsDomainChar) && s[dot] == '.'
    ensures DomainAt(s, at, dot)
  {
  }

  /** A dot that starts a top-level label is followed by a label span. */
  lemma LabelFromRun(s: string, dot: nat)
    requires dot < |s| && TopLabelAt(s, dot)
    ensures LabelSpan(s, dot, dot + 1 + RunLength(s, dot + 1, IsPatternLetter))
  {
  }

  /** `c` and `d` are equal up to ASCII letter case. */
  predicate SameUpToCase(c: char, d: char) {
    c == d || (IsAsciiLetter(c) && IsAsciiLetter(d) && (c as int - d as int == 32 || d as int - c as int == 32))
  }

  predicate IsAsciiLetter(c: char) {
    ('A' <= c <= 'Z') || ('a' <= c <= 'z')
  }

  lemma AllInUpToCase(s: string, t: string, lo: int, hi: int, p: char -> bool)
    requires |s| == |t|
    requires forall i :: 0 <= i < |s| ==> SameUpToCase(s[i], t[i])
    requires forall c, d :: SameUpToCase(c, d) ==> p(c) == p(d)
    ensures AllIn(s, lo, hi, p) <==> AllIn(t, lo, hi, p)
  {
    if AllIn(s, lo, hi, p) {
      forall k | lo <= k < hi ensures p(t[k]) {
        assert SameUpToCase(s[k], t[k]);
      }
    }
    if AllIn(t, lo, hi, p) {
      forall k | lo <= k < hi ensures p(s[k]) {
        assert SameUpToCase(s[k], t[k]);
      }
    }
  }

  lemma MatchSplitUpToCase(s: string, t: string, at: int, dot: int, end: int)
    requires |s| == |t|
    requires forall i :: 0 <= i < |s| ==> SameUpToCase(s[i], t[i])
    requires MatchSplit(s, at, dot, end)
    ensures MatchSplit(t, at, dot, end)
  {
    AllInUpToCase(s, t, 0, at, IsLocalChar);
    AllInUpToCase(s, t, at + 1, dot, IsDomainChar);
    AllInUpToCase(s, t, dot + 1, end, IsPatternLetter);
    assert SameUpToCase(s[0], t[0]) && SameUpToCase(s[at], t[at]) && SameUpToCase(s[dot], t[dot]);
    if end < |s| {
      assert SameUpToCase(s[end], t[end]);
    }
  }

  /** The match ignores ASCII letter case (`re.I`): two strings that differ
      only in the case of their letters are accepted alike. */
  lemma CaseInsensitive(s: string, t: string)
    requires |s| == |t|
    requires forall i :: 0 <= i < |s| ==> SameUpToCase(s[i], t[i])
    ensures HasAddressPrefix(s) <==> HasAddressPrefix(t)
  {
    if HasAddressPrefix(s) {
      var at, dot, end :| MatchSplit(s, at, dot, end);
      MatchSplitUpToCase(s, t, at, dot, end);
    }
    if HasAddressPrefix(t) {
      var at, dot, end :| MatchSplit(t, at, dot, end);
      MatchSplitUpToCase(t, s, at, dot, end);
    }
  }

  /** `re.match` anchors only at the start: text after a match that begins
      with a non-word character (or nothing) keeps the string accepted. */
  lemma TrailingTextAllowed(s: string, t: string)
    requires HasAddressPrefix(s)
    requires t == "" || !IsWordChar(t[0])
    ensures HasAddressPrefix(s + t)
  {
    var at, dot, end :| MatchSplit(s, at, dot, end);
    var u := s + t;
    assert forall k :: 0 <= k < |s| ==> u[k] == s[k];
    if end == |s| && t != "" {
      assert u[end] == t[0];
    }
    assert MatchSplit(u, at, dot, end);
  }

  /** A string in which no dot is followed by two letters has no top-level
      label, so it is rejected; in particular one without a dot. */
  lemma ShortLabelsRejected(s: string)
    requires forall d :: 0 <= d < |s| - 2 && s[d] == '.' ==> !IsPatternLetter(s[d + 1]) || !IsPatternLetter(s[d + 2])
    ensures !HasAddressPrefix(s)
  {
    if HasAddressPrefix(s) {
      var at, dot, end :| MatchSplit(s, at, dot, end);
      LabelLetters(s, at, dot, end);
      assert false;
    }
  }

  lemma LabelLetters(s: string, at: int, dot: int, end: int)
    requires MatchSplit(s, at, dot, end)
    ensures dot < |s| - 2 && s[dot] == '.' && IsPatternLetter(s[dot + 1]) && IsPatternLetter(s[dot + 2])
  {
    assert dot + 1 < end && dot + 2 < end;
  }

  /** Without an `@` there is no match. */
  lemma NoAtRejected(s: string)
    requires '@' !in s
    ensures !HasAddressPrefix(s)
  {
  }

  /** The leading `\b`: a string whose first character is not a word
      character is rejected. */
  lemma NonWordStartRejected(s: string)
    requires s != [] && !IsWordChar(s[0])
    ensures !HasAddressPrefix(s)
  {
  }
}

=== FILE: addresses.dfy ===
/** Address validation (`is_valid_mail_address`) and normalisation
    (`to_parseable_mail_address`) over the Python values a caller may pass. */
module Addresses {
  import opened Results
  import opened AddressPattern

  /** A Python value, as far as the address code inspects it: its type and
      its truthiness.  `Other` is any further object (a number, a dict, ...),
      of which only truthiness matters. */
  datatype Value =
    | Str(s: string)
    | Bool(b: bool)
    | Tuple(items: seq<Value>)
    | List(items: seq<Value>)
    | NoneValue
    | Other(truthy: bool)

  /** Python's `bool(v)`. */
  predicate Truthy(v: Value) {
    match v
    case Str(s) => s != ""
    case Bool(b) => b
    case Tuple(items) => items != []
    case List(items) => items != []
    case NoneValue => false
    case Other(t) => t
  }

  /** The first element of a normalised pair: a display name, or a bool
      (`False` for "no name"). */
  datatype Name = Display(s: string) | Flag(b: bool)

  /** A normalised `(name_or_false, address)` pair. */
  datatype Address = Address(name: Name, addr: string)

  /** The recipient classes; an invalid element is reported per class. */
  datatype Field = To | Cc | Bcc

  datatype Error =
    | InvalidAddress(value: Value)                // `to_parseable_mail_address` raises
    | InvalidInField(field: Field, value: Value)  // "Invalid Address ... in To/Cc/Bcc"
    | NotSplittable(field: Field, value: Value)   // neither list nor str: no `split`
    | Unformattable(address: Address)             // `formataddr` on a non-ASCII address or a name of True
    | ArgumentCountMismatch(value: Value)         // `%` given a tuple of other than one element: TypeError

  predicate IsNameValue(v: Value) {
    v.Str? || v.Bool?
  }

  /** What the validator accepts, stated over the pattern: a string the
      pattern matches, or a pair of a name (str or bool, any content) and
      such a string. */
  ghost predicate WellFormed(v: Value) {
    match v
    case Str(s) => HasAddressPrefix(s)
    case Tuple(items) =>
      |items| == 2 && IsNameValue(items[0]) && items[1].Str? && HasAddressPrefix(items[1].s)
    case _ => false
  }

  /** `is_valid_mail_address`: falsy values and anything but a str or a
      tuple are rejected; a str must match the pattern; a tuple must have
      two elements, a str-or-bool name and a valid str address. */
  function IsValidMailAddress(v: Value): (ok: bool)
    ensures ok <==> WellFormed(v)
    ensures !Truthy(v) ==> !ok
    ensures ok ==> v.Str? || v.Tuple?
  {
    if !Truthy(v) then false
    else match v
      case Str(s) => MatchesAddressCorrect(s); MatchesAddress(s)
      case Tuple(items) =>
        |items| == 2 && IsNameValue(items[0]) && items[1].Str? && IsValidMailAddress(items[1])
      case _ => false
  }

  function NameOf(v: Value): Name
    requires IsNameValue(v)
  {
    if v.Str? then Display(v.s) else Flag(v.b)
  }

  /** The Python tuple a normalised address is. */
  function AsValue(a: Address): Value {
    Tuple([if a.name.Display? then Str(a.name.s) else Bool(a.name.b), Str(a.addr)])
  }

  /** `to_parseable_mail_address` with line 63's message built as intended,
      from `(address,)`: raises naming the invalid value, turns a str into
      `(False, s)` and returns a valid pair unchanged. */
  function ToParseable(v: Value): (r: Result<Address, Error>)
    ensures r.Ok? <==> WellFormed(v)
    ensures r.Err? ==> r.error == InvalidAddress(v)
    ensures r.Ok? && v.Str? ==> r.value == Address(Flag(false), v.s)
    ensures r.Ok? && v.Tuple? ==> AsValue(r.value) == v
    ensures r.Ok? ==> HasAddressPrefix(r.value.addr)
  {
    if !IsValidMailAddress(v) then Err(InvalidAddress(v))
    else if v.Str? then Ok(Address(Flag(false), v.s))
    else Ok(Address(NameOf(v.items[0]), v.items[1].s))
  }

  /** Whether line 63's `'..."%s"...' % address` raises: a tuple is taken
      as the argument list itself, so one of any length but 1 does not fill
      the single `%s` and raises TypeError instead of the intended message. */
  predicate SpoilsMessage(v: Value) {
    v.Tuple? && |v.items| != 1
  }

  /** `to_parseable_mail_address` exactly as written: like `ToParseable`,
      except that an invalid tuple of other than one element raises the
      TypeError of the message formatting. */
  function ToParseableAsWritten(v: Value): (r: Result<Address, Error>)
    ensures r.Ok? <==> WellFormed(v)
    ensures r.Ok? ==> r == ToParseable(v)
    ensures r.Err? ==> (r.error == ArgumentCountMismatch(v) <==> SpoilsMessage(v))
    ensures r.Err? && !SpoilsMessage(v) ==> r == ToParseable(v)
  {
    if !IsValidMailAddress(v) then
      if SpoilsMessage(v) then Err(ArgumentCountMismatch(v)) else Err(InvalidAddress(v))
    else ToParseable(v)
  }

  /** Normalising is idempotent: a normalised pair is itself valid and
      normalises to itself. */
  lemma NormalizeIdempotent(v: Value)
    requires WellFormed(v)
    ensures ToParseable(AsValue(ToParseable(v).value)) == ToParseable(v)
  {
    var a := ToParseable(v).value;
    assert WellFormed(AsValue(a));
    var b := ToParseable(AsValue(a)).value;
    assert AsValue(b) == AsValue(a);
  }

  /** Any name content passes, provided the name is a str or a bool. */
  lemma NameContentIrrelevant(name: Value, name': Value, addr: string)
    requires IsNameValue(name) && IsNameValue(name')
    ensures IsValidMailAddress(Tuple([name, Str(addr)])) == IsValidMailAddress(Tuple([name', Str(addr)]))
    ensures IsValidMailAddress(Tuple([name, Str(addr)])) == IsValidMailAddress(Str(addr))
  {
  }
}

=== FILE: composer.dfy ===
/** The pure part of `send_mail`: formatting addresses into headers, the
    plain/HTML alternative body, and the envelope handed to the transport. */
module Composer {
  import opened Results
  import opened Text
  import opened AddressPattern
  import opened Addresses
  import opened Recipients

  datatype Header = Header(name: string, value: string)

  datatype Subtype = Plain | Html

  /** One `MIMEText(content, subtype, 'utf-8')` part of the alternative body. */
  datatype Part = Part(subtype: Subtype, content: string)

  /** The composed message: headers in the order they are set, the preamble
      and the parts of the `alternative` body. */
  datatype Mail = Mail(headers: seq<Header>, preamble: string, alternative: seq<Part>)

  /** What `sendmail` receives besides the message: the envelope sender and
      the recipient addresses. */
  datatype Envelope = Envelope(sender: string, recipients: seq<string>)

  datatype Outgoing = Outgoing(mail: Mail, envelope: Envelope)

  /** The arguments of `send_mail` the composition depends on. */
  datatype Request = Request(
    to: Value, subject: string, message: string, isHtml: bool,
    cc: Value, bcc: Value, replyTo: Value, sender: Value, text: Option<string>)

  predicate IsAsciiText(s: string) {
    forall i :: 0 <= i < |s| ==> s[i] < '\U{80}'
  }

  /** `formataddr` first encodes the address as ASCII, then renders a
      truthy name as a str: it raises on a non-ASCII address and on a name
      of `True`.  The validator lets non-ASCII addresses through in two
      ways: the pattern's four non-ASCII letters, and any text after the
      matched prefix (`jo@example.com é`). */
  predicate Formattable(a: Address): (ok: bool)
    ensures a.name == Flag(true) ==> !ok
    ensures ok ==> forall i :: 0 <= i < |a.addr| && IsPatternLetter(a.addr[i]) ==>
      'A' <= a.addr[i] <= 'Z' || 'a' <= a.addr[i] <= 'z'
  {
    IsAsciiText(a.addr) && a.name != Flag(true)
  }

  /** The rendering `formataddr` produces, without its quoting of special
      characters: `Name <addr>` for a non-empty name, the bare address
      otherwise. */
  function Rendered(a: Address): (r: string)
    requires Formattable(a)
    ensures r == a.addr <==> a.name.Flag? || a.name.s == ""
    ensures r != a.addr ==> r == a.name.s + " <" + a.addr + ">"
  {
    if a.name.Display? && a.name.s != "" then a.name.s + " <" + a.addr + ">" else a.addr
  }

  /** `formataddr(a)`. */
  function FormatAddress(a: Address): (r: Result<string, Error>)
    ensures r.Ok? <==> Formattable(a)
    ensures r.Ok? ==> r.value == Rendered(a)
    ensures r.Err? ==> r.error == Unformattable(a)
  {
    if Formattable(a) then Ok(Rendered(a)) else Err(Unformattable(a))
  }

  /** A present single address that `formataddr` accepts. */
  predicate OptionFormattable(a: Option<Address>) {
    a.Some? ==> Formattable(a.value)
  }

  predicate AllFormattable(addrs: seq<Address>) {
    forall i :: 0 <= i < |addrs| ==> Formattable(addrs[i])
  }

  /** `addrs[i]` is the first pair `formataddr` rejects. */
  predicate FirstUnformattable(addrs: seq<Address>, i: int) {
    && 0 <= i < |addrs| && !Formattable(addrs[i])
    && forall j :: 0 <= j < i ==> Formattable(addrs[j])
  }

  /** `list(map(formataddr, addrs))`: the first unformattable pair raises. */
  function FormatAll(addrs: seq<Address>): (r: Result<seq<string>, Error>)
    ensures r.Ok? <==> AllFormattable(addrs)
    ensures r.Ok? ==> |r.value| == |addrs| && forall i :: 0 <= i < |addrs| ==> r.value[i] == Rendered(addrs[i])
    ensures r.Err? ==> exists i :: FirstUnformattable(addrs, i) && r.error == Unformattable(addrs[i])
  {
    if |addrs| == 0 then Ok([])
    else if !Formattable(addrs[0]) then
      assert FirstUnformattable(addrs, 0);
      Err(Unformattable(addrs[0]))
    else
      var head := Rendered(addrs[0]);
      var rest := FormatAll(addrs[1..]);
      if rest.Err? then
        var i :| FirstUnformattable(addrs[1..], i) && rest.error == Unformattable(addrs[1..][i]);
        assert FirstUnformattable(addrs, i + 1);
        Err(rest.error)
      else
        Ok([head] + rest.value)
  }

  /** `COMMASPACE.join(map(formataddr, addrs))`. */
  function JoinRendered(addrs: seq<Address>): string
    requires AllFormattable(addrs)
  {
    Join(seq(|addrs|, i requires 0 <= i < |addrs| => Rendered(addrs[i])), ", ")
  }

  /** The value of the first header called `name`, if any. */
  function Lookup(headers: seq<Header>, name: string): Option<string> {
    if |headers| == 0 then None
    else if headers[0].name == name then Some(headers[0].value)
    else Lookup(headers[1..], name)
  }

  predicate HasHeader(headers: seq<Header>, name: string) {
    exists i :: 0 <= i < |headers| && headers[i].name == name
  }

  /** A header carrying a list of addresses, set only when the list is
      non-empty (`if to: mail['To'] = ...`). */
  function ListHeader(name: string, addrs: seq<Address>): (r: Result<seq<Header>, Error>)
    ensures r.Ok? <==> AllFormattable(addrs)
    ensures r.Ok? ==> r.value == if addrs == [] then [] else [Header(name, JoinRendered(addrs))]
    ensures r.Err? ==> exists i :: FirstUnformattable(addrs, i) && r.error == Unformattable(addrs[i])
  {
    if |addrs| == 0 then Ok([])
    else
      var values :- FormatAll(addrs);
      assert values == seq(|addrs|, i requires 0 <= i < |addrs| => Rendered(addrs[i]));
      Ok([Header(name, Join(values, ", "))])
  }

  /** A header carrying one address, set only when it is present. */
  function SingleHeader(name: string, a: Option<Address>): (r: Result<seq<Header>, Error>)
    ensures r.Ok? <==> (a.Some? ==> Formattable(a.value))
    ensures r.Ok? ==> r.value == if a.None? then [] else [Header(name, Rendered(a.value))]
    ensures r.Err? ==> r.error == Unformattable(a.value)
  {
    if a.None? then Ok([])
    else
      var v :- FormatAddress(a.value);
      Ok([Header(name, v)])
  }

  /** Lines 127-140: From, To, Cc and Reply-To when present, then Date and
      Subject.  No Bcc header is ever set. */
  function ComposeHeaders(sender: Option<Address>, to: seq<Address>, cc: seq<Address>,
                          replyTo: Option<Address>, date: string, subject: string): (r: Result<seq<Header>, Error>)
    ensures r.Ok? <==> (sender.Some? ==> Formattable(sender.value)) && AllFormattable(to) && AllFormattable(cc)
                       && (replyTo.Some? ==> Formattable(replyTo.value))
    ensures !OptionFormattable(sender) ==> r == Err(Unformattable(sender.value))
    ensures OptionFormattable(sender) && !AllFormattable(to) ==>
      exists i :: FirstUnformattable(to, i) && r == Err(Unformattable(to[i]))
    ensures OptionFormattable(sender) && AllFormattable(to) && !AllFormattable(cc) ==>
      exists i :: FirstUnformattable(cc, i) && r == Err(Unformattable(cc[i]))
    ensures OptionFormattable(sender) && AllFormattable(to) && AllFormattable(cc) && !OptionFormattable(replyTo) ==>
      r == Err(Unformattable(replyTo.value))
    ensures r.Ok? ==> !HasHeader(r.value, "Bcc")
    ensures r.Ok? ==> Lookup(r.value, "From") == if sender.None? then None else Some(Rendered(sender.value))
    ensures r.Ok? ==> Lookup(r.value, "To") == if to == [] then None else Some(JoinRendered(to))
    ensures r.Ok? ==> Lookup(r.value, "Cc") == if cc == [] then None else Some(JoinRendered(cc))
    ensures r.Ok? ==> Lookup(r.value, "Reply-To") == if replyTo.None? then None else Some(Rendered(replyTo.value))
    ensures r.Ok? ==> Lookup(r.value, "Subject") == Some(subject) && Lookup(r.value, "Date") == Some(date)
  {
    var fromH :- SingleHeader("From", sender);
    var toH :- ListHeader("To", to);
    var ccH :- ListHeader("Cc", cc);
    var replyH :- SingleHeader("Reply-To", replyTo);
    AssembledLookups(fromH, toH, ccH, replyH, date, subject);
    Ok(fromH + toH + ccH + replyH + [Header("Date", date), Header("Subject", subject)])
  }

  /** What a lookup finds in the headers assembled from at most one From,
      To, Cc and Reply-To header followed by Date and Subject. */
  lemma AssembledLookups(fromH: seq<Header>, toH: seq<Header>, ccH: seq<Header>, replyH: seq<Header>,
                         date: string, subject: string)
    requires |fromH| <= 1 && |toH| <= 1 && |ccH| <= 1 && |replyH| <= 1
    requires fromH != [] ==> fromH[0].name == "From"
    requires toH != [] ==> toH[0].name == "To"
    requires ccH != [] ==> ccH[0].name == "Cc"
    requires replyH != [] ==> replyH[0].name == "Reply-To"
    ensures var hs := fromH + toH + ccH + replyH + [Header("Date", date), Header("Subject", subject)];
      && Lookup(hs, "From") == (if fromH == [] then None else Some(fromH[0].value))
      && Lookup(hs, "To") == (if toH == [] then None else Some(toH[0].value))
      && Lookup(hs, "Cc") == (if ccH == [] then None else Some(ccH[0].value))
      && Lookup(hs, "Reply-To") == (if replyH == [] then None else Some(replyH[0].value))
      && Lookup(hs, "Date") == Some(date)
      && Lookup(hs, "Subject") == Some(subject)
      && !HasHeader(hs, "Bcc")
  {
    var tail := [Header("Date", date), Header("Subject", subject)];
    var hs := fromH + toH + ccH + replyH + tail;
    assert tail == [Header("Date", date)] + [Header("Subject", subject)];
    assert "From"[0] == 'F' && "To"[0] == 'T' && "Cc"[0] == 'C' && "Reply-To"[0] == 'R';
    assert "Date"[0] == 'D' && "Subject"[0] == 'S' && "Bcc"[0] == 'B';
    forall name | name in {"From", "To", "Cc", "Reply-To", "Date", "Subject", "Bcc"}
      ensures Lookup(tail, name) == if name == "Date" then Some(date) else if name == "Subject" then Some(subject) else None
    {
      LookupAppend([Header("Date", date)], [Header("Subject", subject)], name);
      LookupAtMostOne([Header("Date", date)], name);
      LookupAtMostOne([Header("Subject", subject)], name);
    }
    LookupIn(fromH, toH, ccH, replyH, tail, "From");
    LookupIn(fromH, toH, ccH, replyH, tail, "To");
    LookupIn(fromH, toH, ccH, replyH, tail, "Cc");
    LookupIn(fromH, toH, ccH, replyH, tail, "Reply-To");
    LookupIn(fromH, toH, ccH, replyH, tail, "Date");
    LookupIn(fromH, toH, ccH, replyH, tail, "Subject");
    LookupIn(fromH, toH, ccH, replyH, tail, "Bcc");
    LookupFindsAny(hs, "Bcc");
  }

  lemma LookupIn(a: seq<Header>, b: seq<Header>, c: seq<Header>, d: seq<Header>, tail: seq<Header>, name: string)
    requires |a| <= 1 && |b| <= 1 && |c| <= 1 && |d| <= 1
    ensures Lookup(a + b + c + d + tail, name) ==
      if a != [] && a[0].name == name then Some(a[0].value)
      else if b != [] && b[0].name == name then Some(b[0].value)
      else if c != [] && c[0].name == name then Some(c[0].value)
      else if d != [] && d[0].name == name then Some(d[0].value)
      else Lookup(tail, name)
  {
    LookupAppend(a + b + c + d, tail, name);
    LookupAppend(a + b + c, d, name);
    LookupAppend(a + b, c, name);
    LookupAppend(a, b, name);
    LookupAtMostOne(a, name);
    LookupAtMostOne(b, name);
    LookupAtMostOne(c, name);
    LookupAtMostOne(d, name);
  }

  lemma LookupAtMostOne(hs: seq<Header>, name: string)
    requires |hs| <= 1
    ensures Lookup(hs, name) == if hs != [] && hs[0].name == name then Some(hs[0].value) else None
  {
    if |hs| == 1 {
      assert hs[1..] == [];
    }
  }

  /** Looking up in a concatenation finds the first part's header first. */
  lemma {:induction false} LookupAppend(a: seq<Header>, b: seq<Header>, name: string)
    ensures Lookup(a + b, name) == if Lookup(a, name).Some? then Lookup(a, name) else Lookup(b, name)
    decreases |a|
  {
    if |a| > 0 {
      LookupAppend(a[1..], b, name);
      assert (a + b)[1..] == a[1..] + b;
    } else {
      assert a + b == b;
    }
  }

  /** A lookup fails exactly when no header has that name. */
  lemma {:induction false} LookupFindsAny(hs: seq<Header>, name: string)
    ensures Lookup(hs, name).None? <==> !HasHeader(hs, name)
    decreases |hs|
  {
    if |hs| > 0 {
      LookupFindsAny(hs[1..], name);
      if HasHeader(hs[1..], name) {
        var i :| 0 <= i < |hs[1..]| && hs[1..][i].name == name;
        assert hs[i + 1].name == name;
      }
      if HasHeader(hs, name) && hs[0].name != name {
        var i :| 0 <= i < |hs| && hs[i].name == name;
        assert hs[1..][i - 1].name == name;
      }
    }
  }

  /** Lines 143-151: the parts of the `alternative` body. */
  function AlternativeParts(isHtml: bool, message: string, text: Option<string>,
                            htmlToText: string -> string): (parts: seq<Part>)
    ensures |parts| == if isHtml then 2 else 1
    ensures parts[0].subtype == Plain
    ensures forall i :: 0 <= i < |parts| ==> (parts[i].subtype == Html <==> i == 1)
    ensures !isHtml ==> parts[0].content == message
    ensures isHtml ==> parts[1].content == message
    ensures isHtml ==> parts[0].content == if text.Some? && text.value != "" then text.value else htmlToText(message)
  {
    if !isHtml then [Part(Plain, message)]
    else
      var plain := if text.Some? && text.value != "" then text.value else htmlToText(message);
      [Part(Plain, plain), Part(Html, message)]
  }

  /** `map(lambda x: x[1], destinations)`: the address of every pair, in order. */
  function Mailboxes(addrs: seq<Address>): (r: seq<string>)
    ensures |r| == |addrs|
    ensures forall i :: 0 <= i < |addrs| ==> r[i] == addrs[i].addr
  {
    if |addrs| == 0 then [] else [addrs[0].addr] + Mailboxes(addrs[1..])
  }

  /** The envelope as line 202 builds it: the subject stands where the
      sender address belongs. */
  function EnvelopeAsWritten(subject: string, to: seq<Address>, cc: seq<Address>, bcc: seq<Address>): (e: Envelope)
    ensures e.sender == subject
    ensures e.recipients == Mailboxes(to) + Mailboxes(cc) + Mailboxes(bcc)
  {
    MailboxesAppend(to, cc);
    MailboxesAppend(to + cc, bcc);
    Envelope(subject, Mailboxes(to + cc + bcc))
  }

  /** The envelope with the sender's own address as envelope sender (the
      empty reverse-path when no sender is given); recipients as written. */
  function EnvelopeFor(sender: Option<Address>, to: seq<Address>, cc: seq<Address>, bcc: seq<Address>): (e: Envelope)
    ensures sender.Some? ==> e.sender == sender.value.addr
    ensures sender.None? ==> e.sender == ""
    ensures e.recipients == Mailboxes(to) + Mailboxes(cc) + Mailboxes(bcc)
  {
    MailboxesAppend(to, cc);
    MailboxesAppend(to + cc, bcc);
    Envelope(if sender.Some? then sender.value.addr else "", Mailboxes(to + cc + bcc))
  }

  lemma {:induction false} MailboxesAppend(xs: seq<Address>, ys: seq<Address>)
    ensures Mailboxes(xs + ys) == Mailboxes(xs) + Mailboxes(ys)
  {
    var l := Mailboxes(xs + ys);
    var r := Mailboxes(xs) + Mailboxes(ys);
    assert |l| == |r|;
    forall i | 0 <= i < |l| ensures l[i] == r[i] {
      if i < |xs| { assert (xs + ys)[i] == xs[i]; } else { assert (xs + ys)[i] == ys[i - |xs|]; }
    }
  }

  /** When `send_mail` gets past composing the message: every field parses,
      and every address that reaches a header formats. */
  predicate Sendable(req: Request) {
    && ParseSingle(req.sender).Ok? && ParseSingle(req.replyTo).Ok?
    && ParseField(To, req.to).Ok? && ParseOptionalField(Cc, req.cc).Ok? && ParseOptionalField(Bcc, req.bcc).Ok?
    && OptionFormattable(ParseSingle(req.sender).value) && OptionFormattable(ParseSingle(req.replyTo).value)
    && AllFormattable(ParseField(To, req.to).value) && AllFormattable(ParseOptionalField(Cc, req.cc).value)
  }

  /** `send_mail` up to the transport: normalise sender and reply-to, parse
      To always and Cc/Bcc when truthy, compose headers and body, and gather
      the envelope.  Errors surface in the order the source raises them. */
  function SendMail(req: Request, date: string, htmlToText: string -> string): (r: Result<Outgoing, Error>)
    ensures ParseSingle(req.sender).Err? ==> r == Err(ParseSingle(req.sender).error)
    ensures ParseSingle(req.sender).Ok? && ParseSingle(req.replyTo).Err? ==> r == Err(ParseSingle(req.replyTo).error)
    ensures ParseSingle(req.sender).Ok? && ParseSingle(req.replyTo).Ok? && ParseField(To, req.to).Err? ==>
      r == Err(ParseField(To, req.to).error)
    ensures (ParseSingle(req.sender).Ok? && ParseSingle(req.replyTo).Ok? && ParseField(To, req.to).Ok?
             && ParseOptionalField(Cc, req.cc).Err?) ==> r == Err(ParseOptionalField(Cc, req.cc).error)
    ensures (ParseSingle(req.sender).Ok? && ParseSingle(req.replyTo).Ok? && ParseField(To, req.to).Ok?
             && ParseOptionalField(Cc, req.cc).Ok? && ParseOptionalField(Bcc, req.bcc).Err?) ==>
      r == Err(ParseOptionalField(Bcc, req.bcc).error)
    ensures r.Ok? <==> Sendable(req)
    ensures (ParseSingle(req.sender).Ok? && ParseSingle(req.replyTo).Ok? && ParseField(To, req.to).Ok?
             && ParseOptionalField(Cc, req.cc).Ok? && ParseOptionalField(Bcc, req.bcc).Ok? && !Sendable(req)) ==>
      r == Err(ComposeHeaders(ParseSingle(req.sender).value, ParseField(To, req.to).value,
                              ParseOptionalField(Cc, req.cc).value, ParseSingle(req.replyTo).value,
                              date, req.subject).error)
    ensures r.Ok? ==>
      r.value.envelope.recipients == Mailboxes(ParseField(To, req.to).value)
        + Mailboxes(ParseOptionalField(Cc, req.cc).value) + Mailboxes(ParseOptionalField(Bcc, req.bcc).value)
    ensures r.Ok? ==> !HasHeader(r.value.mail.headers, "Bcc")
    ensures r.Ok? ==> (Lookup(r.value.mail.headers, "From").Some? <==> Truthy(req.sender))
    ensures r.Ok? ==> (Lookup(r.value.mail.headers, "Reply-To").Some? <==> Truthy(req.replyTo))
    ensures r.Ok? ==> (Lookup(r.value.mail.headers, "Cc").Some? <==> Truthy(req.cc))
    ensures r.Ok? ==> var to := ParseField(To, req.to).value;
      Lookup(r.value.mail.headers, "To") == if to == [] then None else Some(JoinRendered(to))
    ensures r.Ok? ==> var cc := ParseOptionalField(Cc, req.cc).value;
      Lookup(r.value.mail.headers, "Cc") == if cc == [] then None else Some(JoinRendered(cc))
    ensures r.Ok? ==> var sender := ParseSingle(req.sender).value;
      Lookup(r.value.mail.headers, "From") == if sender.None? then None else Some(Rendered(sender.value))
    ensures r.Ok? ==> var replyTo := ParseSingle(req.replyTo).value;
      Lookup(r.value.mail.headers, "Reply-To") == if replyTo.None? then None else Some(Rendered(replyTo.value))
    ensures r.Ok? ==> r.value.envelope == EnvelopeFor(ParseSingle(req.sender).value, ParseField(To, req.to).value,
      ParseOptionalField(Cc, req.cc).value, ParseOptionalField(Bcc, req.bcc).value)
    ensures r.Ok? ==> Lookup(r.value.mail.headers, "Subject") == Some(req.subject)
    ensures r.Ok? ==> Lookup(r.value.mail.headers, "Date") == Some(date)
    ensures r.Ok? ==> r.value.mail.preamble == req.subject
    ensures r.Ok? ==> r.value.mail.alternative == AlternativeParts(req.isHtml, req.message, req.text, htmlToText)
  {
    var sender :- ParseSingle(req.sender);
    var replyTo :- ParseSingle(req.replyTo);
    var to :- ParseField(To, req.to);
    var cc :- ParseOptionalField(Cc, req.cc);
    var bcc :- ParseOptionalField(Bcc, req.bcc);
    var headers :- ComposeHeaders(sender, to, cc, replyTo, date, req.subject);
    var parts := AlternativeParts(req.isHtml, req.message, req.text, htmlToText);
    Ok(Outgoing(Mail(headers, req.subject, parts), EnvelopeFor(sender, to, cc, bcc)))
  }

  /** Bcc never reaches the message: two requests that differ only in their
      Bcc value compose the same mail whenever both succeed. */
  lemma BccOnlyInEnvelope(req: Request, bcc': Value, date: string, htmlToText: string -> string)
    ensures SendMail(req, date, htmlToText).Ok? && SendMail(req.(bcc := bcc'), date, htmlToText).Ok? ==>
      SendMail(req.(bcc := bcc'), date, htmlToText).value.mail == SendMail(req, date, htmlToText).value.mail
  {
  }

  /** A falsy Cc (None, "", [] ...) is not parsed and contributes neither a
      header nor recipients. */
  lemma FalsyCcIgnored(req: Request, date: string, htmlToText: string -> string)
    requires !Truthy(req.cc)
    requires SendMail(req, date, htmlToText).Ok?
    ensures !HasHeader(SendMail(req, date, htmlToText).value.mail.headers, "Cc")
    ensures SendMail(req, date, htmlToText).value.envelope.recipients ==
      Mailboxes(ParseField(To, req.to).value) + Mailboxes(ParseOptionalField(Bcc, req.bcc).value)
  {
    var out := SendMail(req, date, htmlToText).value;
    WithoutCc(out, ParseField(To, req.to).value, ParseOptionalField(Cc, req.cc).value,
              ParseOptionalField(Bcc, req.bcc).value);
  }

  lemma WithoutCc(out: Outgoing, to: seq<Address>, cc: seq<Address>, bcc: seq<Address>)
    requires out.envelope.recipients == Mailboxes(to) + Mailboxes(cc) + Mailboxes(bcc)
    requires cc == [] && Lookup(out.mail.headers, "Cc").None?
    ensures !HasHeader(out.mail.headers, "Cc")
    ensures out.envelope.recipients == Mailboxes(to) + Mailboxes(bcc)
  {
    LookupFindsAny(out.mail.headers, "Cc");
    var t, b := Mailboxes(to), Mailboxes(bcc);
    assert Mailboxes(cc) == [];
    assert t + [] == t;
  }

  /** A list header built from bare addresses parses back, read as a
      comma-separated `to` string, into the very same recipients, as long
      as no address holds a comma or edge whitespace. */
  lemma HeaderValueReparses(addrs: seq<Address>)
    requires |addrs| >= 1
    requires forall i :: 0 <= i < |addrs| ==>
      && addrs[i].name == Flag(false) && IsAsciiText(addrs[i].addr)
      && IsCleanToken(addrs[i].addr) && HasAddressPrefix(addrs[i].addr)
    ensures AllFormattable(addrs)
    ensures ParseField(To, Str(JoinRendered(addrs))) == Ok(addrs)
  {
    var xs := Mailboxes(addrs);
    BareRendering(addrs);
    JoinedAddressesParse(To, xs);
    assert Unnamed(xs) == addrs;
  }

  /** Addresses without a name render as the bare addresses. */
  lemma BareRendering(addrs: seq<Address>)
    requires forall i :: 0 <= i < |addrs| ==> addrs[i].name == Flag(false) && IsAsciiText(addrs[i].addr)
    ensures AllFormattable(addrs) && JoinRendered(addrs) == Join(Mailboxes(addrs), ", ")
  {
    assert seq(|addrs|, i requires 0 <= i < |addrs| => Rendered(addrs[i])) == Mailboxes(addrs);
  }

  /** A `(name, address)` pair in a To list is normalised to itself. */
  lemma NamedPairParses(name: string, addr: string)
    requires HasAddressPrefix(addr)
    ensures ParseField(To, List([Tuple([Str(name), Str(addr)])])) == Ok([Address(Display(name), addr)])
  {
    var item := Tuple([Str(name), Str(addr)]);
    assert WellFormed(item);
    assert ToParseable(item).value == Address(Display(name), addr);
    var r := ParseField(To, List([item]));
    assert r.Ok? && |r.value| == 1 && r.value[0] == Address(Display(name), addr);
    assert r.value == [Address(Display(name), addr)];
  }

  /** A named recipient in a plain message: it reaches the envelope
      recipients as its bare address and the To header as `Name <addr>`,
      and the body is the message itself.  Line 202 would name the subject
      as the envelope sender. */
  lemma NamedRecipient(name: string, addr: string, subject: string, message: string,
                       date: string, htmlToText: string -> string)
    requires name != "" && HasAddressPrefix(addr) && IsAsciiText(addr)
    ensures var req := Request(List([Tuple([Str(name), Str(addr)])]), subject, message, false,
                               NoneValue, NoneValue, NoneValue, NoneValue, None);
      var r := SendMail(req, date, htmlToText);
      && r.Ok?
      && r.value.envelope.recipients == [addr]
      && EnvelopeAsWritten(subject, ParseField(To, req.to).value, [], []) == Envelope(subject, [addr])
      && Lookup(r.value.mail.headers, "To") == Some(name + " <" + addr + ">")
      && Lookup(r.value.mail.headers, "From") == None
      && r.value.mail.alternative == [Part(Plain, message)]
  {
    var a := Address(Display(name), addr);
    NamedPairParses(name, addr);
    assert ParseOptionalField(Cc, NoneValue) == Ok([]);
    var headers := ComposeHeaders(None, [a], [], None, date, subject);
    assert headers.Ok?;
    assert seq(1, i requires 0 <= i < 1 => Rendered([a][i])) == [Rendered(a)];
    assert Lookup(headers.value, "To") == Some(name + " <" + addr + ">");
    assert Mailboxes([a]) == [addr] && Mailboxes([]) == [];
    assert EnvelopeFor(None, [a], [], []).recipients == [addr];
  }
}

=== FILE: recipients.dfy ===
/** The To/Cc/Bcc address lists and the single-address fields (sender,
    reply-to) of `send_mail`, from raw Python values to normalised pairs. */
module Recipients {
  import opened Results
  import opened Text
  import opened AddressPattern
  import opened Addresses

  /** `list(map(strip, s.split(',')))`, each token a Python str. */
  function Tokens(s: string): (r: seq<Value>)
    ensures |r| == |Split(s, ',')| >= 1
    ensures forall i :: 0 <= i < |r| ==> r[i] == Str(Strip(Split(s, ',')[i]))
    ensures forall i :: 0 <= i < |r| ==> r[i].Str? && IsCleanToken(r[i].s)
  {
    var pieces := Split(s, ',');
    var r := seq(|pieces|, i requires 0 <= i < |pieces| => Str(Strip(pieces[i])));
    forall i | 0 <= i < |r| ensures IsCleanToken(r[i].s) {
      StripNoComma(pieces[i]);
    }
    r
  }

  /** Stripping keeps out a comma the piece does not hold. */
  lemma StripNoComma(piece: string)
    requires ',' !in piece
    ensures ',' !in Strip(piece)
  {
    var r := Strip(piece);
    var k :| InfixAmidSpace(piece, r, k);
  }

  /** `v if isinstance(v, list) else list(map(strip, v.split(',')))`: a list
      is taken as it is, a str is split and stripped, anything else has no
      `split` and raises. */
  function Elements(field: Field, v: Value): (r: Result<seq<Value>, Error>)
    ensures r.Ok? <==> v.List? || v.Str?
    ensures v.List? ==> r.value == v.items
    ensures v.Str? ==> r == Ok(Tokens(v.s))
    ensures v.Str? ==> |r.value| >= 1 && forall i :: 0 <= i < |r.value| ==> r.value[i].Str? && IsCleanToken(r.value[i].s)
    ensures r.Err? ==> r.error == NotSplittable(field, v)
  {
    match v
    case List(items) => Ok(items)
    case Str(s) => Ok(Tokens(s))
    case _ => Err(NotSplittable(field, v))
  }

  /** `items[i]` is the first element the validator rejects. */
  predicate FirstInvalid(items: seq<Value>, i: int) {
    && 0 <= i < |items| && !IsValidMailAddress(items[i])
    && forall j :: 0 <= j < i ==> IsValidMailAddress(items[j])
  }

  /** The `for key, mail_address in enumerate(...)` loop: every element is
      validated and replaced by its normalised form; the first invalid one
      aborts with an error naming the field and the element. */
  function NormalizeAll(field: Field, items: seq<Value>): (r: Result<seq<Address>, Error>)
    ensures r.Ok? <==> forall i :: 0 <= i < |items| ==> WellFormed(items[i])
    ensures r.Ok? ==> |r.value| == |items|
    ensures r.Ok? ==> forall i :: 0 <= i < |items| ==> r.value[i] == ToParseable(items[i]).value
    ensures r.Err? ==> exists i :: FirstInvalid(items, i) && r.error == InvalidInField(field, items[i])
  {
    if |items| == 0 then Ok([])
    else if !IsValidMailAddress(items[0]) then
      assert FirstInvalid(items, 0);
      Err(InvalidInField(field, items[0]))
    else
      var rest := NormalizeAll(field, items[1..]);
      if rest.Err? then
        var i :| FirstInvalid(items[1..], i) && rest.error == InvalidInField(field, items[1..][i]);
        assert FirstInvalid(items, i + 1);
        Err(rest.error)
      else
        Ok([ToParseable(items[0]).value] + rest.value)
  }

  /** One recipient field (lines 104-125): its elements, each validated and
      normalised, in order and without deduplication. */
  function ParseField(field: Field, v: Value): (r: Result<seq<Address>, Error>)
    ensures r.Err? ==> (r.error.InvalidInField? || r.error.NotSplittable?) && r.error.field == field
    ensures !v.List? && !v.Str? ==> r == Err(NotSplittable(field, v))
    ensures v.List? ==> (r.Ok? <==> forall i :: 0 <= i < |v.items| ==> WellFormed(v.items[i]))
    ensures v.List? && r.Ok? ==>
      (|r.value| == |v.items| && forall i :: 0 <= i < |v.items| ==> r.value[i] == ToParseable(v.items[i]).value)
    ensures r.Ok? && Truthy(v) ==> r.value != []
  {
    var items :- Elements(field, v);
    NormalizeAll(field, items)
  }

  /** Cc and Bcc are only parsed when truthy; otherwise they add nothing. */
  function ParseOptionalField(field: Field, v: Value): (r: Result<seq<Address>, Error>)
    ensures !Truthy(v) ==> r == Ok([])
    ensures Truthy(v) ==> r == ParseField(field, v)
    ensures r.Ok? ==> (r.value != [] <==> Truthy(v))
  {
    if Truthy(v) then ParseField(field, v) else Ok([])
  }

  /** The sender and reply-to handling (lines 98-102): a truthy value is
      normalised as one address, a falsy one is absent. */
  function ParseSingle(v: Value): (r: Result<Option<Address>, Error>)
    ensures !Truthy(v) ==> r == Ok(None)
    ensures Truthy(v) ==> (r.Ok? <==> WellFormed(v))
    ensures Truthy(v) && r.Ok? ==> r.value.Some? && r.value.value == ToParseable(v).value
    ensures r.Err? ==> r.error == InvalidAddress(v)
  {
    if Truthy(v) then
      var a :- ToParseable(v);
      Ok(Some(a))
    else Ok(None)
  }

  /** A CSV string parses exactly like the list of its stripped tokens. */
  lemma CsvMatchesList(field: Field, s: string)
    ensures ParseField(field, Str(s)) == ParseField(field, List(Tokens(s)))
  {
  }

  /** The single-address fields (sender, reply-to) never accept a list:
      a non-empty list is truthy but neither a str nor a tuple. */
  lemma ListIsNotSingle(items: seq<Value>)
    requires items != []
    ensures ParseSingle(List(items)) == Err(InvalidAddress(List(items)))
  {
  }

  /** A trailing comma leaves an empty last token, which is invalid, so the
      whole field is rejected. */
  lemma {:induction false} TrailingCommaRejected(field: Field, s: string)
    ensures ParseField(field, Str(s + ",")).Err?
  {
    var pieces := Split(s, ',');
    SplitJoin(pieces + [""], ',');
    JoinAppend(pieces, "", [',']);
    assert Join(pieces + [""], [',']) == s + ",";
    var tokens := Tokens(s + ",");
    StripFixed("");
    assert tokens[|tokens| - 1] == Str("");
    assert !WellFormed(tokens[|tokens| - 1]);
  }

  /** A single pair passed as a recipient field is neither list nor str, so
      it raises instead of being taken as a one-element list. */
  lemma PairIsNotARecipientList(field: Field, name: Value, addr: string)
    ensures ParseField(field, Tuple([name, Str(addr)])) == Err(NotSplittable(field, Tuple([name, Str(addr)])))
  {
  }

  /** Address strings as the Python str values a caller passes. */
  function AsStrs(xs: seq<string>): seq<Value> {
    seq(|xs|, i requires 0 <= i < |xs| => Str(xs[i]))
  }

  /** Address strings as normalised pairs with no name. */
  function Unnamed(xs: seq<string>): seq<Address> {
    seq(|xs|, i requires 0 <= i < |xs| => Address(Flag(false), xs[i]))
  }

  /** A token that survives splitting on `,` and stripping unchanged. */
  predicate IsCleanToken(x: string) {
    ',' !in x && (x == "" || (!IsSpace(x[0]) && !IsSpace(x[|x| - 1])))
  }

  /** A clean token behind the space `", "` leaves strips back to itself. */
  lemma SpacedTokenStrips(x: string)
    requires IsCleanToken(x)
    ensures ',' !in " " + x && Strip(" " + x) == x
  {
    assert " " + x + "" == " " + x;
    StripSurrounded(" ", x, "");
  }

  /** Splitting clean tokens joined with `", "` on `,` gives back every
      token but the first behind one space. */
  lemma SplitOfJoin(xs: seq<string>)
    requires |xs| >= 1
    requires forall i :: 0 <= i < |xs| ==> IsCleanToken(xs[i])
    ensures Split(Join(xs, ", "), ',') == [xs[0]] + SpacePrefixed(xs[1..])
  {
    JoinCommaSpace(xs);
    var spaced := SpacePrefixed(xs[1..]);
    var ys := [xs[0]] + spaced;
    forall i | 0 <= i < |ys| ensures ',' !in ys[i] {
      if i > 0 {
        assert ys[i] == " " + xs[i];
        SpacedTokenStrips(xs[i]);
      }
    }
    SplitJoin(ys, ',');
  }

  /** Clean tokens joined with `", "` split and strip back into themselves. */
  lemma TokensOfJoin(xs: seq<string>)
    requires |xs| >= 1
    requires forall i :: 0 <= i < |xs| ==> IsCleanToken(xs[i])
    ensures Tokens(Join(xs, ", ")) == AsStrs(xs)
  {
    SplitOfJoin(xs);
    var ys := Split(Join(xs, ", "), ',');
    forall i | 0 <= i < |xs| ensures Strip(ys[i]) == xs[i] {
      PieceStrips(xs, i);
    }
    TokensOfPieces(Join(xs, ", "), xs);
  }

  /** When the pieces of `s` strip to `xs`, the tokens of `s` are `xs`. */
  lemma TokensOfPieces(s: string, xs: seq<string>)
    requires |Split(s, ',')| == |xs|
    requires forall i :: 0 <= i < |xs| ==> Strip(Split(s, ',')[i]) == xs[i]
    ensures Tokens(s) == AsStrs(xs)
  {
    var toks := Tokens(s);
    forall i | 0 <= i < |xs| ensures toks[i] == Str(xs[i]) {
    }
  }

  /** The `i`-th piece of the split strips back to the `i`-th token. */
  lemma PieceStrips(xs: seq<string>, i: int)
    requires 0 <= i < |xs|
    requires forall j :: 0 <= j < |xs| ==> IsCleanToken(xs[j])
    ensures Strip(([xs[0]] + SpacePrefixed(xs[1..]))[i]) == xs[i]
  {
    if i == 0 {
      StripFixed(xs[0]);
    } else {
      assert ([xs[0]] + SpacePrefixed(xs[1..]))[i] == " " + xs[i];
      SpacedTokenStrips(xs[i]);
    }
  }

  /** Valid address strings normalise into the same addresses with no name. */
  lemma BareAddressesNormalise(field: Field, xs: seq<string>)
    requires forall i :: 0 <= i < |xs| ==> HasAddressPrefix(xs[i])
    ensures NormalizeAll(field, AsStrs(xs)) == Ok(Unnamed(xs))
  {
    var toks := AsStrs(xs);
    var want := Unnamed(xs);
    forall i | 0 <= i < |toks| ensures WellFormed(toks[i]) && ToParseable(toks[i]) == Ok(want[i]) {
    }
    var r := NormalizeAll(field, toks);
    assert r.Ok? && |r.value| == |want|;
    forall i | 0 <= i < |xs| ensures r.value[i] == want[i] {
      assert r.value[i] == ToParseable(toks[i]).value;
    }
    assert r.value == want;
  }

  /** Valid clean addresses joined with `", "` parse, in any field, into
      the same addresses with no name. */
  lemma JoinedAddressesParse(field: Field, xs: seq<string>)
    requires |xs| >= 1
    requires forall i :: 0 <= i < |xs| ==> IsCleanToken(xs[i]) && HasAddressPrefix(xs[i])
    ensures ParseField(field, Str(Join(xs, ", "))) == Ok(Unnamed(xs))
  {
    TokensOfJoin(xs);
    BareAddressesNormalise(field, xs);
    assert ParseField(field, Str(Join(xs, ", "))) == NormalizeAll(field, Tokens(Join(xs, ", ")));
  }

  /** The two spellings the documentation offers for several recipients,
      a CSV string and a list, parse alike, into the bare addresses. */
  lemma CsvAndListAgree(field: Field, xs: seq<string>)
    requires |xs| >= 1
    requires forall i :: 0 <= i < |xs| ==> IsCleanToken(xs[i]) && HasAddressPrefix(xs[i])
    ensures ParseField(field, Str(Join(xs, ", "))) == ParseField(field, List(AsStrs(xs)))
    ensures ParseField(field, Str(Join(xs, ", "))) == Ok(Unnamed(xs))
  {
    JoinedAddressesParse(field, xs);
    BareAddressesNormalise(field, xs);
    ListParsesAsIs(field, AsStrs(xs));
  }

  lemma ListParsesAsIs(field: Field, items: seq<Value>)
    ensures ParseField(field, List(items)) == NormalizeAll(field, items)
  {
  }
}

=== FILE: results.dfy ===
/** Failure-compatible wrappers used throughout the model: a raised Python
    exception becomes an `Err`, a normal return an `Ok`. */
module Results {

  datatype Option<+T> = None | Some(value: T)

  datatype Result<+T, +E> = Ok(value: T) | Err(error: E) {

    predicate IsFailure() {
      Err?
    }

    function PropagateFailure<U>(): Result<U, E>
      requires Err?
    {
      Err(error)
    }

    function Extract(): T
      requires Ok?
    {
      value
    }
  }
}

=== FILE: scenarios.dfy ===
/** Concrete calls of the model, taken from the repository's docstring and
    integration test, and the envelope-sender discrepancy. */
module Scenarios {
  import opened Results
  import opened Text
  import opened AddressPattern
  import opened Addresses
  import opened Recipients
  import opened Composer

  lemma JoAccepted()
    ensures HasAddressPrefix("jo@example.com")
  {
    assert MatchSplit("jo@example.com", 2, 10, 14);
  }

  /** A mixed-case address is accepted like its lower-case form. */
  lemma UpperCaseAccepted()
    ensures HasAddressPrefix("A@b.Cc")
  {
    var s := "a@b.cc";
    var t := "A@b.Cc";
    assert MatchSplit(s, 1, 3, 6);
    assert SameUpToCase(s[0], t[0]) && SameUpToCase(s[1], t[1]) && SameUpToCase(s[2], t[2]);
    assert SameUpToCase(s[3], t[3]) && SameUpToCase(s[4], t[4]) && SameUpToCase(s[5], t[5]);
    CaseInsensitive(s, t);
  }

  /** A top-level label of one letter is rejected. */
  lemma OneLetterLabelRejected()
    ensures !HasAddressPrefix("jo@example.c")
  {
    var s := "jo@example.c";
    assert forall d :: 0 <= d < |s| - 2 ==> s[d] != '.';
    ShortLabelsRejected(s);
  }

  /** Trailing text after a complete match is allowed: a top-level label
      followed by `.d` still matches at `a@b.cc`. */
  lemma TrailingLabelAccepted()
    ensures HasAddressPrefix("a@b.cc.d")
  {
    assert MatchSplit("a@b.cc.d", 1, 3, 6);
  }

  /** A comma-separated string inside a list is one element, and passes the
      validator because its first address matches. */
  lemma CsvElementPasses()
    ensures IsValidMailAddress(Str("a@x.com, b@y.com"))
  {
    assert MatchSplit("a@x.com, b@y.com", 1, 3, 7);
  }

  /** The Kelvin sign U+212A counts as a letter of the pattern, so an
      address ending in it is accepted, but `formataddr` cannot encode it
      as ASCII and raises when the header is built. */
  lemma KelvinSignAccepted()
    ensures HasAddressPrefix("a@b.k\U{212A}")
    ensures !Formattable(Address(Flag(false), "a@b.k\U{212A}"))
  {
    var s := "a@b.k\U{212A}";
    assert MatchSplit(s, 1, 3, 6);
    assert s[5] == '\U{212A}';
  }

  /** Line 202 hands the subject to `sendmail` as the envelope sender.  For
      a call like the integration test's the as-written envelope sender is the
      subject line, which is no address at all, while the corrected envelope
      carries the sender's address. */
  lemma EnvelopeSenderIsSubject()
    ensures var subject := "[Mail Test] Hello";
      var sender := Address(Display("App"), "notifications@example.com");
      && EnvelopeAsWritten(subject, [], [], []).sender == subject
      && !HasAddressPrefix(EnvelopeAsWritten(subject, [], [], []).sender)
      && EnvelopeFor(Some(sender), [], [], []).sender == "notifications@example.com"
      && HasAddressPrefix(EnvelopeFor(Some(sender), [], [], []).sender)
  {
    var subject := "[Mail Test] Hello";
    assert subject[0] == '[';
    NonWordStartRejected(subject);
    assert MatchSplit("notifications@example.com", 13, 21, 25);
  }

  /** A sender pair with an invalid address, `("Jo", "bad")`, is rejected,
      but line 63 formats the message with the pair itself as the argument
      list: two arguments for one `%s` raise TypeError, so the intended
      message naming the value never appears. */
  lemma BadPairLosesMessage()
    ensures var v := Tuple([Str("Jo"), Str("bad")]);
      && ToParseableAsWritten(v) == Err(ArgumentCountMismatch(v))
      && ToParseable(v) == Err(InvalidAddress(v))
      && ParseSingle(v) == Err(InvalidAddress(v))
  {
    var bad := "bad";
    assert bad[0] != '@' && bad[1] != '@' && bad[2] != '@';
    NoAtRejected(bad);
  }

  /** Text after the matched prefix is never checked, so a non-ASCII tail
      passes the validator and then makes `formataddr` raise. */
  lemma AccentedTailAccepted()
    ensures IsValidMailAddress(Str("jo@example.com \U{E9}"))
    ensures !Formattable(Address(Flag(false), "jo@example.com \U{E9}"))
  {
    JoAccepted();
    TrailingTextAllowed("jo@example.com", " \U{E9}");
    assert "jo@example.com" + " \U{E9}" == "jo@example.com \U{E9}";
    assert "jo@example.com \U{E9}"[15] == '\U{E9}';
  }
}

=== FILE: text.dfy ===
/** The string operations the recipient parser relies on: Python's
    `str.split(sep)` for a one-character separator, `sep.join(pieces)`
    and `str.strip()` with no argument. */
module Text {

  /** Python 3 `str.isspace()`: the characters `str.strip()` removes. */
  predicate IsSpace(c: char) {
    || c == ' '
    || ('\t' <= c <= '\r')
    || ('\U{1C}' <= c <= '\U{1F}')
    || c == '\U{85}' || c == '\U{A0}' || c == '\U{1680}'
    || ('\U{2000}' <= c <= '\U{200A}')
    || c == '\U{2028}' || c == '\U{2029}' || c == '\U{202F}'
    || c == '\U{205F}' || c == '\U{3000}'
  }

  predicate AllSpace(s: string) {
    forall i :: 0 <= i < |s| ==> IsSpace(s[i])
  }

  /** `sep.join(pieces)`. */
  function Join(pieces: seq<string>, sep: string): string
  {
    if |pieces| == 0 then ""
    else if |pieces| == 1 then pieces[0]
    else pieces[0] + sep + Join(pieces[1..], sep)
  }

  /** `s.split(sep)` for a single-character separator: the maximal runs
      between separators, always at least one piece. */
  function Split(s: string, sep: char): (pieces: seq<string>)
    ensures |pieces| >= 1
    ensures forall i :: 0 <= i < |pieces| ==> sep !in pieces[i]
    ensures Join(pieces, [sep]) == s
  {
    if |s| == 0 then [""]
    else
      var rest := Split(s[1..], sep);
      if s[0] == sep then
        assert s == [sep] + s[1..];
        [""] + rest
      else
        var head := [s[0]] + rest[0];
        assert Join([head] + rest[1..], [sep]) == [s[0]] + Join(rest, [sep]);
        [head] + rest[1..]
  }

  /** Split inverts Join: a non-empty list of separator-free pieces is
      recovered exactly from its joined form. */
  lemma {:induction false} SplitJoin(pieces: seq<string>, sep: char)
    requires |pieces| >= 1
    requires forall i :: 0 <= i < |pieces| ==> sep !in pieces[i]
    ensures Split(Join(pieces, [sep]), sep) == pieces
    decreases |pieces|, |pieces[0]|
  {
    var p := pieces[0];
    if |pieces| == 1 {
      SplitSeparatorFree(p, sep);
    } else if |p| == 0 {
      var s := Join(pieces, [sep]);
      assert s == [sep] + Join(pieces[1..], [sep]);
      assert s[1..] == Join(pieces[1..], [sep]);
      SplitJoin(pieces[1..], sep);
    } else {
      var s := Join(pieces, [sep]);
      var shorter := [p[1..]] + pieces[1..];
      assert shorter[1..] == pieces[1..];
      assert s[0] == p[0];
      assert s[1..] == Join(shorter, [sep]);
      SplitJoin(shorter, sep);
      assert p[0] != sep;
      assert [p[0]] + p[1..] == p;
      assert Split(s, sep) == [[s[0]] + shorter[0]] + shorter[1..];
    }
  }

  lemma {:induction false} SplitSeparatorFree(s: string, sep: char)
    requires sep !in s
    ensures Split(s, sep) == [s]
    decreases |s|
  {
    if |s| > 0 {
      assert sep !in s[1..] by {
        forall i | 0 <= i < |s[1..]| ensures s[1..][i] != sep {
          assert s[1..][i] == s[i + 1];
        }
      }
      SplitSeparatorFree(s[1..], sep);
      assert [s[0]] + s[1..] == s;
    }
  }

  /** Appending one more piece to a join adds the separator and the piece. */
  lemma {:induction false} JoinAppend(pieces: seq<string>, last: string, sep: string)
    requires |pieces| >= 1
    ensures Join(pieces + [last], sep) == Join(pieces, sep) + sep + last
    decreases |pieces|
  {
    if |pieces| == 1 {
      assert pieces + [last] == [pieces[0], last];
      assert [pieces[0], last][1..] == [last];
    } else {
      assert (pieces + [last])[1..] == pieces[1..] + [last];
      JoinAppend(pieces[1..], last, sep);
    }
  }

  /** Joining with `", "` is joining with `","` after prefixing every piece
      but the first with a space. */
  lemma {:induction false} JoinCommaSpace(pieces: seq<string>)
    requires |pieces| >= 1
    ensures Join(pieces, ", ") == Join([pieces[0]] + SpacePrefixed(pieces[1..]), [','])
    decreases |pieces|
  {
    if |pieces| > 1 {
      var rest := pieces[1..];
      JoinCommaSpace(rest);
      var sp := SpacePrefixed(rest);
      assert sp == [" " + rest[0]] + SpacePrefixed(rest[1..]);
      assert ([pieces[0]] + sp)[1..] == sp;
      if |rest| > 1 {
        assert sp[1..] == SpacePrefixed(rest[1..]);
      }
    }
  }

  /** Every piece with a space in front. */
  function SpacePrefixed(pieces: seq<string>): (r: seq<string>)
    ensures |r| == |pieces|
    ensures forall i :: 0 <= i < |pieces| ==> r[i] == " " + pieces[i]
  {
    if |pieces| == 0 then [] else [" " + pieces[0]] + SpacePrefixed(pieces[1..])
  }

  /** The characters removed from the front by `lstrip()`. */
  function LeadingSpaces(s: string): (n: nat)
    ensures n <= |s|
    ensures AllSpace(s[..n])
    ensures n == |s| || !IsSpace(s[n])
  {
    if |s| == 0 || !IsSpace(s[0]) then 0
    else
      var k := LeadingSpaces(s[1..]);
      assert s[..k + 1] == [s[0]] + s[1..][..k];
      k + 1
  }

  /** The characters removed from the back by `rstrip()`. */
  function TrailingSpaces(s: string): (n: nat)
    ensures n <= |s|
    ensures AllSpace(s[|s| - n..])
    ensures n == |s| || !IsSpace(s[|s| - n - 1])
  {
    if |s| == 0 || !IsSpace(s[|s| - 1]) then 0
    else
      var k := TrailingSpaces(s[..|s| - 1]);
      assert s[|s| - (k + 1)..] == s[..|s| - 1][|s| - 1 - k..] + [s[|s| - 1]];
      k + 1
  }

  /** `r` sits at offset `k` of `s` with only white space around it. */
  ghost predicate InfixAmidSpace(s: string, r: string, k: int) {
    0 <= k <= |s| - |r| && r == s[k..k + |r|] && AllSpace(s[..k]) && AllSpace(s[k + |r|..])
  }

  /** `s.strip()`: the infix with no white space at either end that is
      surrounded only by white space. */
  function Strip(s: string): (r: string)
    ensures r == "" || (!IsSpace(r[0]) && !IsSpace(r[|r| - 1]))
    ensures exists k :: InfixAmidSpace(s, r, k)
  {
    var lead := LeadingSpaces(s);
    if lead == |s| then
      StripAllSpace(s);
      ""
    else
      var rest := s[lead..];
      var trail := TrailingSpaces(rest);
      StripNonEmpty(s, lead, trail);
      rest[..|rest| - trail]
  }

  lemma StripAllSpace(s: string)
    requires AllSpace(s)
    ensures InfixAmidSpace(s, "", 0)
  {
    assert s[..0] == "" && s[0..] == s;
  }

  lemma StripNonEmpty(s: string, lead: nat, trail: nat)
    requires lead < |s| && AllSpace(s[..lead]) && !IsSpace(s[lead])
    requires trail <= |s| - lead
    requires AllSpace(s[lead..][|s| - lead - trail..])
    requires trail == |s| - lead || !IsSpace(s[lead..][|s| - lead - trail - 1])
    ensures trail < |s| - lead
    ensures var r := s[lead..][..|s| - lead - trail];
      && r != "" && !IsSpace(r[0]) && !IsSpace(r[|r| - 1])
      && InfixAmidSpace(s, r, lead)
  {
    var rest := s[lead..];
    var r := rest[..|rest| - trail];
    assert r[0] == s[lead];
    assert s[lead + |r|..] == rest[|r|..];
    assert s[lead..lead + |r|] == r;
  }

  lemma {:induction false} LeadingSpacesOf(a: string, t: string)
    requires AllSpace(a)
    requires t == "" || !IsSpace(t[0])
    ensures LeadingSpaces(a + t) == |a|
    decreases |a|
  {
    if |a| > 0 {
      assert (a + t)[1..] == a[1..] + t;
      LeadingSpacesOf(a[1..], t);
    } else {
      assert a + t == t;
    }
  }

  lemma {:induction false} TrailingSpacesOf(t: string, b: string)
    requires AllSpace(b)
    requires t == "" || !IsSpace(t[|t| - 1])
    ensures TrailingSpaces(t + b) == |b|
    decreases |b|
  {
    if |b| > 0 {
      assert (t + b)[..|t + b| - 1] == t + b[..|b| - 1];
      TrailingSpacesOf(t, b[..|b| - 1]);
    } else {
      assert t + b == t;
    }
  }

  /** Surrounding a stripped string with white space does not change what
      `strip()` returns. */
  lemma StripSurrounded(a: string, m: string, b: string)
    requires AllSpace(a) && AllSpace(b)
    requires m == "" || (!IsSpace(m[0]) && !IsSpace(m[|m| - 1]))
    ensures Strip(a + m + b) == m
  {
    var s := a + m + b;
    if m == "" {
      assert s == (a + b) + "";
      LeadingSpacesOf(a + b, "");
    } else {
      assert s == a + (m + b);
      LeadingSpacesOf(a, m + b);
      assert s[|a|..] == m + b;
      TrailingSpacesOf(m, b);
      assert (m + b)[..|m|] == m;
    }
  }

  /** `strip()` leaves a string that is already stripped unchanged. */
  lemma StripFixed(s: string)
    requires s == "" || (!IsSpace(s[0]) && !IsSpace(s[|s| - 1]))
    ensures Strip(s) == s
  {
    assert "" + s + "" == s;
    StripSurrounded("", s, "");
  }

  /** `strip()` is idempotent. */
  lemma StripIdempotent(s: string)
    ensures Strip(Strip(s)) == Strip(s)
  {
    StripFixed(Strip(s));
  }
}
